=== FILE: README.md ===
# logcolors in Dafny

A model of `logcolors`, a small Python layer that colours log output for a
terminal. It has two parts:

- **`Color`** (`logcolors/color.py`). A value, which none of its methods mutates, with an optional
  foreground palette index, an optional background palette index and a bold
  flag. It has two derivations (`with_background`, `with_bold`), structural
  equality and a `repr`. Calling it on a text wraps that text in an SGR
  (Select Graphic Rendition, section 8.3.117 of ECMA-48) escape,
  `ESC [ codes m text ESC [ 0 m`. The codes are the foreground index + 30,
  then the background index + 40, then `1` for bold. Absent parts are left
  out.
- **`ColorStreamHandler`** (`logcolors/logging.py`). Its colour map is built
  from five defaults with per-name overrides on top. A level missing from the
  map falls back to `Clear`. `format` wraps the formatted record in its level's
  colour only when the stream is a terminal. `emit` writes the message and then
  the terminator, and then flushes. `handlers()` returns a one-element list, unless an override is named `self`, which the constructor refuses.

Files:

| file | module | contents |
|---|---|---|
| `wrappers.dfy` | `Wrappers` | `Option`, which stands for Python's `None` or a value |
| `decimal.dfy` | `Decimal` | Python's `str(int)` as `IntToDecimal`, and `ParseInt`, which reads it back |
| `strings.dfy` | `Strings` | `sep.join`, `str.split` and a first-occurrence search, with their round trips |
| `color.dfy` | `Colors` | the `Color` datatype, the palette, the derivations, equality, rendering and `repr` |
| `color_parse.dfy` | `ColorParse` | readers for a rendering and for a `repr`, proved inverse to the writers |
| `logging.dfy` | `ColorLogging` | the handler: colour map, lookup, `format`, `emit` as an event trace, `handlers` |

Modelling choices:

- The colour fields are `Option<int>`, as in Python, which does not check
  the range. `str(n)` is modelled as the canonical decimal text of `n`,
  so rendering is defined for every integer; the interpreter's limit on
  very long integer strings is not modelled (see "## Left out"). `InPalette` names the intended range 0..7. The
  decoding round trip holds on that range, and
  `ColorParse.RenderAmbiguousOutsidePalette` shows why it cannot hold
  outside it.
- The join filter `if code` is modelled literally. `Colors.CodeCandidates`
  holds the three candidates: `None` for an absent colour, and `''` when
  bold is false. `Colors.KeepTruthy` drops the falsy ones.
  `Colors.CodesArePresentFields` proves that this drops exactly the absent
  fields and a false bold flag.
- Python's keyword arguments become a `map<string, Color>`. Keyword
  arguments cannot repeat a name, so a map loses nothing. One name is
  refused: `__init__` binds its receiver as `self`, so an override called
  `self` raises `TypeError`. `ColorLogging.ConstructHandler` and
  `ColorLogging.Handlers` return `None` for exactly that case.
  `dict.update` becomes map union, where the right-hand side wins.
- Three things the handler consumes are parameters of the Dafny
  functions. The host framework's record formatter becomes the string
  `message`. The stream's `isatty()` check becomes the flag `isTty`.
  The stream itself becomes the returned `Event` trace.
- An exception in `emit` is described by an optional `Fault`. It says
  at which step the exception happens and which kind it is.

## Model

| member | source | states |
|---|---|---|
| Colors.WithBackground | logcolors/color.py:37-42 | the new background is the argument's foreground, not its background; foreground and bold are kept; palette colours stay in the palette |
| Colors.WithBackgroundReadsForegroundOnly | logcolors/color.py:37-42 | two arguments with the same foreground give the same result, whatever their backgrounds |
| Colors.WithBold | logcolors/color.py:44-49 | bold becomes the argument; foreground and background are kept |
| Colors.WithBoldDefault | logcolors/color.py:44 | calling with no argument is the same as passing true; passing the current flag changes nothing |
| Colors.DerivationsOverride | logcolors/color.py:37-49 | a second with_background replaces the first, and a second with_bold replaces the first |
| Colors.DerivationsCommute | logcolors/color.py:37-49 | with_background and with_bold touch different fields, so their order does not matter |
| Colors.Equals | logcolors/color.py:68-71 | `__eq__` holds exactly when the two colours are the same value |
| Colors.NamedColors | logcolors/color.py:74-82 | Clear is (None, None, False); the i-th palette colour is (i, None, False) for i in 0..7 |
| Colors.KeepTruthyMembers | logcolors/color.py:53-57 | a string is in the result exactly when it is non-empty and present as a candidate: falsy candidates are dropped, nothing is added, and no result is empty |
| Colors.CodesArePresentFields | logcolors/color.py:53-57 | codes are the fg+30 code, then the bg+40 code, then "1", each present exactly when its field is set; there are no codes exactly for Clear |
| Colors.CodeCharacters | logcolors/color.py:53-57 | no code contains ';' or 'm', and the joined code string contains no 'm', so the first 'm' after ESC [ ends the parameters |
| Colors.PaletteCodesInRange | logcolors/color.py:53-57 | for palette colours every code is 1, 30..37 or 40..47 |
| Colors.Render | logcolors/color.py:51-59 | every rendering starts with ESC [ and ends with 'm', the text, then ESC [ 0 m |
| Colors.RenderClear | logcolors/color.py:51-59 | Clear still wraps the text, with an empty code string: ESC [ m text ESC [ 0 m |
| Colors.RenderRedExample | logcolors/color.py:28-30 | Red renders any text as ESC [ 31 m text ESC [ 0 m, as the class doctest shows for "Red Text" |
| Colors.RenderWhiteOnBlackExample | logcolors/color.py:28-30 | white on black renders with codes "37;40", as the class doctest shows |
| Colors.Repr | logcolors/color.py:61-66 | a repr starts with "Color(" and ends with ")" |
| Colors.ReprWhiteOnRed | logcolors/color.py:13-14 | repr of White.with_background(Red) is "Color(7, 1, False)" |
| Colors.ReprWhiteBold | logcolors/color.py:18-19 | repr of White.with_bold() is "Color(7, None, True)" |
| Colors.ReprWhiteNotBold | logcolors/color.py:21-22 | repr of White.with_bold(False) is "Color(7, None, False)" |
| Decimal.NatToDecimal | logcolors/color.py:54-55 | str of a natural number is non-empty, all digits, and starts with '0' only for zero |
| Decimal.IntToDecimal | logcolors/color.py:54-55 | str of an integer is non-empty and starts with '-' exactly for negative numbers; IntToDecimalRoundTrip shows ParseInt reads it back |
| Decimal.IntToDecimalRoundTrip | logcolors/color.py:54-55 | str of an integer reads back as the same integer, so str loses nothing |
| Decimal.IntToDecimalInjective | logcolors/color.py:54-55 | distinct integers have distinct decimal texts, so distinct in-range codes never print alike |
| Strings.Join | logcolors/color.py:53 | `';'.join`: no parts give the empty string, one part gives itself, and the first part leads the result; SplitJoin shows splitting recovers the parts |
| Strings.SplitJoin | logcolors/color.py:53 | splitting a ';'-join of parts that contain no ';' gives the parts back |
| ColorParse.DecodeCodesComplete | logcolors/color.py:53-57 | the code list of every palette colour reads back as that colour |
| ColorParse.DecodeCodesSound | logcolors/color.py:53-57 | a code list that reads as a colour is exactly that palette colour's code list |
| ColorParse.RenderRoundTrip | logcolors/color.py:51-59 | reading back the rendering of a palette colour gives the colour and the text |
| ColorParse.DecodeRenderedIff | logcolors/color.py:51-59 | for palette colours, a string reads back as (colour, text) if and only if it is their rendering |
| ColorParse.RenderInjective | logcolors/color.py:51-59 | different palette colours or different texts never render the same |
| ColorParse.RenderAmbiguousOutsidePalette | logcolors/color.py:54-55 | logcolors does not check the range: foreground 10 and background 0 both render as code 40 |
| ColorParse.ReprRoundTrip | logcolors/color.py:61-66 | reading back a repr gives the same colour, for every colour |
| ColorParse.ParseReprSound | logcolors/color.py:61-66 | any string that reads back as a colour is exactly that colour's repr |
| ColorParse.ReprInjective | logcolors/color.py:61-66 | distinct colours have distinct reprs |
| ColorLogging.ConstructHandler | logcolors/logging.py:34-42 | construction fails (the TypeError) exactly when an override is named "self"; otherwise the handler has the default names plus the override names as keys, every override wins its key, and the terminator is a newline |
| ColorLogging.NewHandler | logcolors/logging.py:35-42 | the map's keys are the default names plus the override names; an override wins for its own key; every other default is kept; the terminator is a newline |
| ColorLogging.ColorFor | logcolors/logging.py:66 | `get(level, Clear)`: a mapped level gets its colour and an unknown level gets Clear; a map of palette colours yields a palette colour; for a built handler this is override, then default, then Clear (LookupPrecedence) |
| ColorLogging.Format | logcolors/logging.py:63-67 | without a terminal the base message is returned unchanged; on a terminal the output is framed by ESC [ and the message followed by ESC [ 0 m, and for a palette colour it reads back (DecodeRendered) as exactly the level's colour and the unchanged message |
| ColorLogging.LookupPrecedence | logcolors/logging.py:35-42 | a level's colour is its override if any, else its default if any, else Clear |
| ColorLogging.DefaultColors | logcolors/logging.py:35-41 | the defaults cover DEBUG, INFO, WARNING, ERROR and CRITICAL; all are palette colours; CRITICAL is (7, 1, True) |
| ColorLogging.OverrideErrorOnly | logcolors/logging.py:42 | overriding only ERROR changes ERROR and leaves DEBUG, INFO, WARNING and CRITICAL at their defaults |
| ColorLogging.FormatWithoutTtyIsIdentity | logcolors/logging.py:63-67 | without a terminal, format returns the base message unchanged for every level |
| ColorLogging.FormatOnTtyDecodes | logcolors/logging.py:65-66 | on a terminal the output reads back as the level's colour and the unchanged base message |
| ColorLogging.DefaultHandlerOutputDecodes | logcolors/logging.py:63-67 | with the default map, every level's terminal output reads back to its message; unknown levels read back as Clear |
| ColorLogging.CriticalOnTty | logcolors/logging.py:40 | with the default map, a CRITICAL record on a terminal is wrapped with the codes 37;41;1 in that order |
| ColorLogging.Emit | logcolors/logging.py:52-61 | the text written is always a prefix of the formatted message plus the terminator; flush happens exactly when nothing fails; only KeyboardInterrupt and SystemExit escape; any other failure goes to the error handler, whose call is the last event; a failure keeps what was already written: nothing before the message write, the message before the terminator write, both before the flush |
| ColorLogging.WrittenBefore | logcolors/logging.py:52-61 | the writes that complete before a failing step are kept, whether or not handleError runs afterwards: nothing, the formatted message, or the message and the terminator |
| ColorLogging.EmitWritesMessageThenTerminator | logcolors/logging.py:54-57 | a clean emit writes the formatted message, then the terminator, and flushes last |
| ColorLogging.Handlers | logcolors/logging.py:70-72 | fails exactly when an override is named "self"; otherwise the result has exactly one handler, which writes "\n" after each message, whose keys are the defaults plus the overrides, and whose lookup gives the override, then the default, then Clear |

## Left out

- `StreamHandler.format`, the host framework's record formatter, is not visible. Its result is the `message` parameter.
- The `is_tty` property (logcolors/logging.py:45-50) calls `isatty()` on the stream and treats a missing method as false. This platform check is the `isTty` parameter.
- The real stream and `flush()` are foreign I/O. Their effect is the `Event` trace, and a failing step is an abstract `Fault`. What a half-finished write leaves on the stream is not modelled.
- What `handleError` prints is not modelled. It appears only as the `ErrorHandled` event.
- Decimal.IntToDecimal: is total, while Python 3.11 and later (and the 3.7.14, 3.8.14, 3.9.14 and 3.10.7 security releases) raise `ValueError` from `str(int)` for integers of more than 4300 digits. So `__call__` and `__repr__` can fail there, while `Colors.Render`, `Colors.Repr` and `ColorParse.ReprRoundTrip` are stated for every integer. The limit is an interpreter setting, not part of this code.
- Python `Color` attributes are plain assignable fields, and the handler's map holds the module-level palette objects by reference (logcolors/logging.py:35-40). So assigning, say, `Red.bold = True` would change how every existing handler renders ERROR. The model treats colours as values and does not model this aliasing; nothing in logcolors assigns these attributes after construction.
- `__eq__` against a value that is not a `Color` raises `AttributeError` in Python. The model compares colours only.
- No locking is modelled; the handler has none.
- logcolors/__main__.py is a demo script that runs the real logging module and the doctests; it has no logic of its own. logcolors/__init__.py only re-exports.

=== FILE: color.dfy ===
/**
 The colour value of logcolors: an immutable record of an optional
 foreground palette index, an optional background palette index and a bold
 flag, with its two derivations, structural equality, its `repr` text and its
 rendering as an SGR (Select Graphic Rendition, section 8.3.117 of ECMA-48)
 escape around a piece of text.
 */
module Colors {
  import opened Wrappers
  import opened Decimal
  import opened Strings

  /** `foreground`/`background` are palette indices (0 black .. 7 white) or None for the terminal default. */
  datatype Color = Color(foreground: Option<int>, background: Option<int>, bold: bool)

  /** `Color(foreground)` with the constructor's defaults: no background, not bold. */
  function Plain(foreground: Option<int>): Color {
    Color(foreground, None, false)
  }

  const Clear: Color := Plain(None)
  const Black: Color := Plain(Some(0))
  const Red: Color := Plain(Some(1))
  const Green: Color := Plain(Some(2))
  const Yellow: Color := Plain(Some(3))
  const Blue: Color := Plain(Some(4))
  const Magenta: Color := Plain(Some(5))
  const Cyan: Color := Plain(Some(6))
  const White: Color := Plain(Some(7))

  /** The eight named colours in palette order. */
  const Palette: seq<Color> := [Black, Red, Green, Yellow, Blue, Magenta, Cyan, White]

  predicate IsPaletteIndex(o: Option<int>) {
    o.None? || 0 <= o.value < 8
  }

  /** Both colour slots hold a palette index or nothing; logcolors does not check this. */
  predicate InPalette(c: Color) {
    IsPaletteIndex(c.foreground) && IsPaletteIndex(c.background)
  }

  // ---------------------------------------------------------------------
  // Derivations

  /** This colour drawn on `backgroundColor`: the background slot takes the argument's FOREGROUND. */
  function WithBackground(c: Color, backgroundColor: Color): (r: Color)
    ensures r.background == backgroundColor.foreground
    ensures r.foreground == c.foreground && r.bold == c.bold
    ensures InPalette(c) && InPalette(backgroundColor) ==> InPalette(r)
  {
    Color(c.foreground, backgroundColor.foreground, c.bold)
  }

  /** This colour with boldness `bold`; the argument defaults to true as in `with_bold`. */
  function WithBold(c: Color, bold: bool := true): (r: Color)
    ensures r.bold == bold
    ensures r.foreground == c.foreground && r.background == c.background
    ensures InPalette(c) ==> InPalette(r)
  {
    Color(c.foreground, c.background, bold)
  }

  /** `__eq__`: field-by-field comparison, which is exactly value equality. */
  function Equals(a: Color, b: Color): (r: bool)
    ensures r <==> a == b
  {
    a.foreground == b.foreground && a.background == b.background && a.bold == b.bold
  }

  /** The argument's own background never matters, only its foreground. */
  lemma WithBackgroundReadsForegroundOnly(c: Color, x: Color, y: Color)
    requires x.foreground == y.foreground
    ensures WithBackground(c, x) == WithBackground(c, y)
  {
  }

  /** A second `WithBackground` overrides the first; so does a second `WithBold`. */
  lemma DerivationsOverride(c: Color, x: Color, y: Color, a: bool, b: bool)
    ensures WithBackground(WithBackground(c, x), y) == WithBackground(c, y)
    ensures WithBold(WithBold(c, a), b) == WithBold(c, b)
  {
  }

  /** The two derivations touch different fields, so their order does not matter. */
  lemma DerivationsCommute(c: Color, x: Color, b: bool)
    ensures WithBold(WithBackground(c, x), b) == WithBackground(WithBold(c, b), x)
  {
  }

  /** `with_bold()` is `with_bold(True)`, and `with_bold(c.bold)` changes nothing. */
  lemma WithBoldDefault(c: Color)
    ensures WithBold(c) == WithBold(c, true)
    ensures WithBold(c, c.bold) == c
  {
  }

  /** Every named constant: Clear is all-default; the i-th palette colour has foreground i and nothing else. */
  lemma NamedColors()
    ensures Clear == Color(None, None, false)
    ensures |Palette| == 8
    ensures forall i :: 0 <= i < |Palette| ==> Palette[i] == Color(Some(i), None, false)
    ensures forall i :: 0 <= i < |Palette| ==> InPalette(Palette[i])
  {
  }

  // ---------------------------------------------------------------------
  // Rendering

  const Esc: char := 0x1b as char

  /** Control Sequence Introducer, ESC [. */
  const Csi: string := [Esc, '[']

  /** SGR 0: back to the terminal defaults. */
  const ResetSgr: string := Csi + "0m"

  /**
   The three code slots before filtering: the foreground code (index + 30),
   the background code (index + 40), then "1" for bold or the empty string.
   */
  function CodeCandidates(c: Color): seq<Option<string>> {
    [ if c.foreground.None? then None else Some(IntToDecimal(c.foreground.value + 30)),
      if c.background.None? then None else Some(IntToDecimal(c.background.value + 40)),
      Some(if c.bold then "1" else "") ]
  }

  /** The generator's `if code` filter: drops None and the empty string, keeps the order. */
  function KeepTruthy(xs: seq<Option<string>>): (r: seq<string>)
    ensures |r| <= |xs|
    ensures forall i :: 0 <= i < |r| ==> r[i] != ""
  {
    if |xs| == 0 then []
    else
      var rest := KeepTruthy(xs[1..]);
      if xs[0].Some? && xs[0].value != "" then [xs[0].value] + rest else rest
  }

  function Codes(c: Color): seq<string> {
    KeepTruthy(CodeCandidates(c))
  }

  /** The SGR parameter string, codes joined with ';'. */
  function CodeString(c: Color): string {
    Join(Codes(c), ';')
  }

  /** `__call__`: `text` wrapped as ESC [ codes m text ESC [ 0 m. */
  function Render(c: Color, text: string): (r: string)
    ensures |r| >= |Csi| + 1 + |text| + |ResetSgr|
    ensures r[..|Csi|] == Csi
    ensures r[|r| - |text| - |ResetSgr|..] == text + ResetSgr
    ensures r[|r| - |text| - |ResetSgr| - 1] == 'm'
  {
    Csi + CodeString(c) + "m" + text + ResetSgr
  }

  function ForegroundCodes(c: Color): seq<string> {
    if c.foreground.Some? then [IntToDecimal(c.foreground.value + 30)] else []
  }

  function BackgroundCodes(c: Color): seq<string> {
    if c.background.Some? then [IntToDecimal(c.background.value + 40)] else []
  }

  function BoldCodes(c: Color): seq<string> {
    if c.bold then ["1"] else []
  }

  /** The foreground code if present, then the background code if present, then "1" if bold. */
  function ExpectedCodes(c: Color): seq<string> {
    ForegroundCodes(c) + BackgroundCodes(c) + BoldCodes(c)
  }

  /** One step of the filter: a truthy head is kept in front of the filtered tail. */
  lemma KeepTruthyCons(x: Option<string>, ys: seq<Option<string>>)
    ensures KeepTruthy([x] + ys)
         == (if x.Some? && x.value != "" then [x.value] else []) + KeepTruthy(ys)
  {
    assert ([x] + ys)[1..] == ys;
  }

  /** A string survives the filter exactly when it is non-empty and one of the candidates. */
  lemma {:induction false} KeepTruthyMembers(xs: seq<Option<string>>)
    ensures forall s :: s in KeepTruthy(xs) <==> s != "" && Some(s) in xs
    decreases |xs|
  {
    if |xs| > 0 {
      KeepTruthyMembers(xs[1..]);
      assert xs == [xs[0]] + xs[1..];
      forall s
        ensures Some(s) in xs <==> Some(s) == xs[0] || Some(s) in xs[1..]
      {
        if Some(s) in xs {
          var i :| 0 <= i < |xs| && xs[i] == Some(s);
          if i > 0 { assert xs[1..][i - 1] == Some(s); }
        }
      }
    }
  }

  /** The filter drops exactly the absent colours and a false bold flag, since no decimal text is empty. */
  lemma CodesArePresentFields(c: Color)
    ensures Codes(c) == ExpectedCodes(c)
    ensures |Codes(c)| == 0 <==> c == Clear
  {
    var xs := CodeCandidates(c);
    assert xs == [xs[0]] + ([xs[1]] + ([xs[2]] + []));
    KeepTruthyCons(xs[2], []);
    KeepTruthyCons(xs[1], [xs[2]] + []);
    KeepTruthyCons(xs[0], [xs[1]] + ([xs[2]] + []));
  }

  /** Code text is made of digits and minus signs only. */
  predicate IsCodeText(s: string) {
    forall i :: 0 <= i < |s| ==> IsDigit(s[i]) || s[i] == '-'
  }

  lemma CodeTextHasNo(s: string, x: char)
    requires IsCodeText(s) && !IsDigit(x) && x != '-'
    ensures x !in s
  {
  }

  /** No code contains ';' or 'm', which is what makes a rendering readable back. */
  lemma CodeCharacters(c: Color)
    ensures forall i :: 0 <= i < |Codes(c)| ==> ';' !in Codes(c)[i] && 'm' !in Codes(c)[i]
    ensures 'm' !in CodeString(c)
  {
    CodesArePresentFields(c);
    var codes := Codes(c);
    if c.foreground.Some? {
      IntToDecimalChars(c.foreground.value + 30);
    }
    if c.background.Some? {
      IntToDecimalChars(c.background.value + 40);
    }
    assert forall i :: 0 <= i < |codes| ==> IsCodeText(codes[i]);
    forall i | 0 <= i < |codes|
      ensures ';' !in codes[i] && 'm' !in codes[i]
    {
      CodeTextHasNo(codes[i], ';');
      CodeTextHasNo(codes[i], 'm');
    }
    if 'm' in CodeString(c) {
      JoinChars(codes, ';', 'm');
    }
  }

  /** Clear still wraps its text, with an empty parameter string. */
  lemma RenderClear(text: string)
    ensures Render(Clear, text) == Csi + "m" + text + ResetSgr
  {
    CodesArePresentFields(Clear);
  }

  /** The class doctest: red text, code 31. */
  lemma RenderRedExample(text: string)
    ensures Render(Red, text) == Csi + "31m" + text + ResetSgr
  {
    CodesArePresentFields(Red);
    TwoDigitDecimal(31);
    assert Codes(Red) == ["31"];
  }

  /** The class doctest: white on black, codes 37 then 40. */
  lemma RenderWhiteOnBlackExample(text: string)
    ensures Render(WithBackground(White, Black), text) == Csi + "37;40m" + text + ResetSgr
  {
    var c := WithBackground(White, Black);
    CodesArePresentFields(c);
    TwoDigitDecimal(37);
    TwoDigitDecimal(40);
    assert Codes(c) == ["37", "40"];
    assert CodeString(c) == "37;40";
  }

  /** A palette colour's codes lie in the ECMA-48 ranges: foreground 30-37, background 40-47. */
  lemma PaletteCodesInRange(c: Color)
    requires InPalette(c)
    ensures c.foreground.Some? ==> 30 <= c.foreground.value + 30 <= 37
    ensures c.background.Some? ==> 40 <= c.background.value + 40 <= 47
    ensures forall i :: 0 <= i < |Codes(c)| ==>
              ParseInt(Codes(c)[i]).Some? && ParseInt(Codes(c)[i]).value in {1, 30, 31, 32, 33, 34, 35, 36, 37, 40, 41, 42, 43, 44, 45, 46, 47}
  {
    CodesArePresentFields(c);
    if c.foreground.Some? {
      IntToDecimalRoundTrip(c.foreground.value + 30);
    }
    if c.background.Some? {
      IntToDecimalRoundTrip(c.background.value + 40);
    }
    assert ParseInt("1") == Some(1);
  }

  // ---------------------------------------------------------------------
  // repr

  /** Python's `str` of an optional int: "None" or the decimal text. */
  function ReprOption(o: Option<int>): string {
    match o
    case None => "None"
    case Some(n) => IntToDecimal(n)
  }

  function ReprBool(b: bool): string {
    if b then "True" else "False"
  }

  /** The argument list of the repr: the three fields separated by ", ". */
  function ReprArguments(c: Color): string {
    ReprOption(c.foreground) + ", " + ReprOption(c.background) + ", " + ReprBool(c.bold)
  }

  /** `__repr__`: Color(<foreground>, <background>, <bold>). */
  function Repr(c: Color): (r: string)
    ensures |r| > 7 && r[..6] == "Color(" && r[|r| - 1] == ')'
  {
    "Color(" + ReprArguments(c) + ")"
  }

  /** The module doctest: white on red prints its background as 1. */
  lemma ReprWhiteOnRed()
    ensures Repr(WithBackground(White, Red)) == "Color(7, 1, False)"
  {
    var c := WithBackground(White, Red);
    assert ReprOption(c.foreground) == "7" by { OneDigitDecimal(7); }
    assert ReprOption(c.background) == "1" by { OneDigitDecimal(1); }
    assert ReprArguments(c) == "7, 1, False";
  }

  /** The module doctest on `with_bold()`: the default argument sets bold. */
  lemma ReprWhiteBold()
    ensures Repr(WithBold(White)) == "Color(7, None, True)"
  {
    var c := WithBold(White);
    assert ReprOption(c.foreground) == "7" by { OneDigitDecimal(7); }
    assert ReprOption(c.background) == "None";
    assert ReprArguments(c) == "7, None, True";
  }

  /** The module doctest on `with_bold(False)`. */
  lemma ReprWhiteNotBold()
    ensures Repr(WithBold(White, false)) == "Color(7, None, False)"
  {
    var c := WithBold(White, false);
    assert ReprOption(c.foreground) == "7" by { OneDigitDecimal(7); }
    assert ReprOption(c.background) == "None";
    assert ReprArguments(c) == "7, None, False";
  }
}

=== FILE: color_parse.dfy ===
/**
 Readers for the two texts a colour produces: its SGR rendering and its
 `repr`. Each is proved to be an exact inverse of the writer, which shows
 that the writers lose no information (for rendering, on palette colours).
 */
module ColorParse {
  import opened Wrappers
  import opened Decimal
  import opened Strings
  import opened Colors

  // ---------------------------------------------------------------------
  // SGR escapes

  /** The palette index `k` when `code` is the canonical decimal text of `base + k`, 0 <= k < 8. */
  function ColorIndex(code: string, base: int): (r: Option<int>)
    ensures r.Some? ==> 0 <= r.value < 8 && code == IntToDecimal(r.value + base)
  {
    match ParseInt(code)
    case None => None
    case Some(v) => if base <= v < base + 8 && IntToDecimal(v) == code then Some(v - base) else None
  }

  lemma ColorIndexOfCode(k: int, base: int)
    requires 0 <= k < 8
    ensures ColorIndex(IntToDecimal(k + base), base) == Some(k)
  {
    IntToDecimalRoundTrip(base + k);
  }

  /** Takes a leading code of the palette range starting at `base`, if there is one. */
  function TakeIndex(codes: seq<string>, base: int): (r: (Option<int>, seq<string>))
    ensures r.0.Some? ==> |codes| > 0 && codes == [IntToDecimal(r.0.value + base)] + r.1 && 0 <= r.0.value < 8
    ensures r.0.None? ==> r.1 == codes
  {
    if |codes| > 0 && ColorIndex(codes[0], base).Some? then (ColorIndex(codes[0], base), codes[1..])
    else (None, codes)
  }

  /** What may follow the colour codes: nothing, or the bold code alone. */
  function DecodeBold(last: seq<string>): (r: Option<bool>)
    ensures r.Some? ==> last == (if r.value then ["1"] else [])
  {
    if last == [] then Some(false)
    else if last == ["1"] then Some(true)
    else None
  }

  /** Reads an SGR parameter list laid out as the renderer lays it out: [fg code] [bg code] ["1"]. */
  function DecodeCodes(codes: seq<string>): Option<Color> {
    var t1 := TakeIndex(codes, 30);
    var t2 := TakeIndex(t1.1, 40);
    match DecodeBold(t2.1)
    case None => None
    case Some(bold) => Some(Color(t1.0, t2.0, bold))
  }

  lemma TakeIndexOfCode(k: int, base: int, rest: seq<string>)
    requires 0 <= k < 8
    ensures TakeIndex([IntToDecimal(k + base)] + rest, base) == (Some(k), rest)
  {
    ColorIndexOfCode(k, base);
    assert ([IntToDecimal(k + base)] + rest)[1..] == rest;
  }

  /** A code outside the range starting at `base` is left in place. */
  lemma TakeIndexOfOther(codes: seq<string>, base: int, v: int)
    requires |codes| > 0 && ParseInt(codes[0]) == Some(v)
    requires v < base || base + 8 <= v
    ensures TakeIndex(codes, base) == (None, codes)
  {
  }

  lemma ParseBoldCode()
    ensures ParseInt("1") == Some(1)
  {
    assert "1"[1..] == "";
  }

  /** A background code is not a foreground code. */
  lemma TakeIndexOfBackgroundCode(k: int, rest: seq<string>)
    requires 0 <= k < 8
    ensures TakeIndex([IntToDecimal(k + 40)] + rest, 30) == (None, [IntToDecimal(k + 40)] + rest)
  {
    IntToDecimalRoundTrip(k + 40);
    TakeIndexOfOther([IntToDecimal(k + 40)] + rest, 30, k + 40);
  }

  /** The bold code is neither a foreground nor a background code. */
  lemma TakeIndexOfBoldCode(base: int)
    requires base > 1
    ensures TakeIndex(["1"], base) == (None, ["1"])
  {
    ParseBoldCode();
    TakeIndexOfOther(["1"], base, 1);
  }

  lemma TakeBackground(c: Color)
    requires InPalette(c)
    ensures TakeIndex(BackgroundCodes(c) + BoldCodes(c), 40) == (c.background, BoldCodes(c))
  {
    if c.background.Some? {
      assert BackgroundCodes(c) + BoldCodes(c) == [IntToDecimal(c.background.value + 40)] + BoldCodes(c);
      TakeIndexOfCode(c.background.value, 40, BoldCodes(c));
    } else if c.bold {
      assert BackgroundCodes(c) + BoldCodes(c) == ["1"];
      TakeIndexOfBoldCode(40);
    } else {
      assert BackgroundCodes(c) + BoldCodes(c) == [];
    }
  }

  lemma TakeForeground(c: Color)
    requires InPalette(c)
    ensures TakeIndex(ForegroundCodes(c) + (BackgroundCodes(c) + BoldCodes(c)), 30)
         == (c.foreground, BackgroundCodes(c) + BoldCodes(c))
  {
    var rest := BackgroundCodes(c) + BoldCodes(c);
    if c.foreground.Some? {
      assert ForegroundCodes(c) + rest == [IntToDecimal(c.foreground.value + 30)] + rest;
      TakeIndexOfCode(c.foreground.value, 30, rest);
    } else if c.background.Some? {
      assert ForegroundCodes(c) + rest == rest == [IntToDecimal(c.background.value + 40)] + BoldCodes(c);
      TakeIndexOfBackgroundCode(c.background.value, BoldCodes(c));
    } else if c.bold {
      assert ForegroundCodes(c) + rest == rest == ["1"];
      TakeIndexOfBoldCode(30);
    } else {
      assert ForegroundCodes(c) + rest == [];
    }
  }

  /** Every palette colour's code list reads back as that colour. */
  lemma DecodeCodesComplete(c: Color)
    requires InPalette(c)
    ensures DecodeCodes(Codes(c)) == Some(c)
  {
    CodesArePresentFields(c);
    assert Codes(c) == ForegroundCodes(c) + (BackgroundCodes(c) + BoldCodes(c));
    TakeForeground(c);
    TakeBackground(c);
  }

  lemma DecodeCodesShape(codes: seq<string>, c: Color)
    requires DecodeCodes(codes) == Some(c)
    ensures InPalette(c)
    ensures codes == ForegroundCodes(c) + (BackgroundCodes(c) + BoldCodes(c))
  {
    var t1 := TakeIndex(codes, 30);
    var t2 := TakeIndex(t1.1, 40);
    var bold := DecodeBold(t2.1);
    assert c == Color(t1.0, t2.0, bold.value);
    assert t2.1 == BoldCodes(c);
    if t2.0.Some? {
      assert t1.1 == BackgroundCodes(c) + t2.1;
    } else {
      assert t1.1 == t2.1;
    }
    if t1.0.Some? {
      assert codes == ForegroundCodes(c) + t1.1;
    } else {
      assert codes == t1.1;
    }
  }

  /** Only palette colours' own code lists are accepted. */
  lemma DecodeCodesSound(codes: seq<string>, c: Color)
    requires DecodeCodes(codes) == Some(c)
    ensures InPalette(c)
    ensures Codes(c) == codes
  {
    DecodeCodesShape(codes, c);
    CodesArePresentFields(c);
  }

  /** Cuts ESC [ params m text ESC [ 0 m into the parameter string and the text. */
  function SplitRendered(s: string): Option<(string, string)> {
    if |s| < |Csi| + 1 + |ResetSgr| || s[..|Csi|] != Csi || s[|s| - |ResetSgr|..] != ResetSgr then None
    else
      var i := IndexOf(s[|Csi|..], 'm');
      if |Csi| + i + 1 > |s| - |ResetSgr| then None
      else Some((s[|Csi|..|Csi| + i], s[|Csi| + i + 1..|s| - |ResetSgr|]))
  }

  /** The parameter string as a code list; the empty string holds no codes. */
  function ParamCodes(params: string): seq<string> {
    if params == "" then [] else Split(params, ';')
  }

  /** Takes a rendering apart into the colour and the text. */
  function DecodeRendered(s: string): (r: Option<(Color, string)>)
    ensures r.Some? ==> InPalette(r.value.0)
  {
    match SplitRendered(s)
    case None => None
    case Some((params, text)) =>
      match DecodeCodes(ParamCodes(params))
      case None => None
      case Some(c) =>
        DecodeCodesSound(ParamCodes(params), c);
        Some((c, text))
  }

  lemma SplitRenderedSound(s: string, params: string, text: string)
    requires SplitRendered(s) == Some((params, text))
    ensures s == Csi + params + "m" + text + ResetSgr
  {
    var i := IndexOf(s[|Csi|..], 'm');
    var j := |Csi| + i;
    var k := |s| - |ResetSgr|;
    assert s[..|Csi|] == Csi;
    assert s[|Csi|..j] == params;
    assert s[j..j + 1] == "m";
    assert s[j + 1..k] == text;
    assert s[k..] == ResetSgr;
    assert s == s[..|Csi|] + s[|Csi|..j] + s[j..j + 1] + s[j + 1..k] + s[k..];
  }

  lemma SplitRenderedComplete(params: string, text: string)
    requires 'm' !in params
    ensures SplitRendered(Csi + params + "m" + text + ResetSgr) == Some((params, text))
  {
    var s := Csi + params + "m" + text + ResetSgr;
    assert s[|Csi|..] == params + ['m'] + (text + ResetSgr);
    IndexOfAfterPrefix(params, 'm', text + ResetSgr);
    assert s[..|Csi|] == Csi;
    assert s[|s| - |ResetSgr|..] == ResetSgr;
    assert s[|Csi|..|Csi| + |params|] == params;
    assert s[|Csi| + |params| + 1..|s| - |ResetSgr|] == text;
  }

  lemma ParamCodesOfColor(c: Color)
    ensures ParamCodes(CodeString(c)) == Codes(c)
  {
    CodeCharacters(c);
    if CodeString(c) != "" {
      SplitJoin(Codes(c), ';');
    }
  }

  lemma JoinParamCodes(params: string)
    ensures Join(ParamCodes(params), ';') == params
  {
    if params != "" {
      JoinSplit(params, ';');
    }
  }

  /** Reading a rendering of a palette colour gives back the colour and the text. */
  lemma RenderRoundTrip(c: Color, text: string)
    requires InPalette(c)
    ensures DecodeRendered(Render(c, text)) == Some((c, text))
  {
    CodeCharacters(c);
    SplitRenderedComplete(CodeString(c), text);
    ParamCodesOfColor(c);
    DecodeCodesComplete(c);
  }

  /** Whatever the reader accepts is exactly the rendering of what it returns. */
  lemma DecodeRenderedSound(s: string, c: Color, text: string)
    requires DecodeRendered(s) == Some((c, text))
    ensures s == Render(c, text)
  {
    var (params, t) := SplitRendered(s).value;
    SplitRenderedSound(s, params, t);
    DecodeCodesSound(ParamCodes(params), c);
    JoinParamCodes(params);
  }

  /** For palette colours the reader and the renderer are inverse: a string decodes to (c, t) exactly when it renders them. */
  lemma DecodeRenderedIff(s: string, c: Color, text: string)
    requires InPalette(c)
    ensures DecodeRendered(s) == Some((c, text)) <==> s == Render(c, text)
  {
    if s == Render(c, text) {
      RenderRoundTrip(c, text);
    }
    if DecodeRendered(s) == Some((c, text)) {
      DecodeRenderedSound(s, c, text);
    }
  }

  /** Distinct palette colours, or distinct texts, never render the same. */
  lemma RenderInjective(c1: Color, t1: string, c2: Color, t2: string)
    requires InPalette(c1) && InPalette(c2)
    requires Render(c1, t1) == Render(c2, t2)
    ensures c1 == c2 && t1 == t2
  {
    RenderRoundTrip(c1, t1);
    RenderRoundTrip(c2, t2);
  }

  /**
   Outside the palette the indices logcolors leaves unchecked collide: foreground 10
   and background 0 are both written as code 40.
   */
  lemma RenderAmbiguousOutsidePalette(text: string)
    ensures Render(Color(Some(10), None, false), text) == Render(Color(None, Some(0), false), text)
    ensures Color(Some(10), None, false) != Color(None, Some(0), false)
  {
    CodesArePresentFields(Color(Some(10), None, false));
    CodesArePresentFields(Color(None, Some(0), false));
  }

  // ---------------------------------------------------------------------
  // repr

  /** Reads "None" or the canonical decimal text of an integer. */
  function ParseOption(s: string): (r: Option<Option<int>>)
    ensures r.Some? ==> ReprOption(r.value) == s
  {
    if s == "None" then Some(None)
    else match ParseInt(s)
      case None => None
      case Some(n) => if IntToDecimal(n) == s then Some(Some(n)) else None
  }

  function ParseBool(s: string): (r: Option<bool>)
    ensures r.Some? ==> ReprBool(r.value) == s
  {
    if s == "True" then Some(true) else if s == "False" then Some(false) else None
  }

  /** The three comma-separated fields of a repr, each after the first with its leading space. */
  function ReprFields(c: Color): seq<string> {
    [ReprOption(c.foreground), " " + ReprOption(c.background), " " + ReprBool(c.bold)]
  }

  /** Reads the three fields back; the second and third must start with a space. */
  function ParseFields(parts: seq<string>): Option<Color> {
    if |parts| != 3 || |parts[1]| == 0 || parts[1][0] != ' ' || |parts[2]| == 0 || parts[2][0] != ' ' then None
    else
      match (ParseOption(parts[0]), ParseOption(parts[1][1..]), ParseBool(parts[2][1..]))
      case (Some(f), Some(b), Some(bold)) => Some(Color(f, b, bold))
      case _ => None
  }

  /** Reads Color(<foreground>, <background>, <bold>) back into a colour. */
  function ParseRepr(s: string): Option<Color> {
    if |s| < 7 || s[..6] != "Color(" || s[|s| - 1] != ')' then None
    else ParseFields(Split(s[6..|s| - 1], ','))
  }

  lemma ReprOptionHasNoComma(o: Option<int>)
    ensures ',' !in ReprOption(o)
  {
    var s := ReprOption(o);
    if o.Some? {
      IntToDecimalChars(o.value);
    }
    assert forall i :: 0 <= i < |s| ==> s[i] != ',';
  }

  lemma ParseOptionOfRepr(o: Option<int>)
    ensures ParseOption(ReprOption(o)) == Some(o)
  {
    if o.Some? {
      IntToDecimalRoundTrip(o.value);
      assert ReprOption(o)[0] != 'N';
    }
  }

  lemma ReprIsJoin(c: Color)
    ensures ReprArguments(c) == Join(ReprFields(c), ',')
  {
    var f := ReprFields(c);
    assert f == [f[0]] + ([f[1]] + [f[2]]);
    JoinCons(f[1], [f[2]], ',');
    JoinCons(f[0], [f[1]] + [f[2]], ',');
    Regroup(ReprOption(c.foreground), ReprOption(c.background), ReprBool(c.bold), ',', ' ');
  }

  lemma Regroup(a: string, b: string, d: string, x: char, y: char)
    ensures a + [x, y] + b + [x, y] + d == a + [x] + (([y] + b) + [x] + ([y] + d))
  {
  }

  lemma ReprFieldsHaveNoComma(c: Color)
    ensures forall i :: 0 <= i < |ReprFields(c)| ==> ',' !in ReprFields(c)[i]
  {
    ReprOptionHasNoComma(c.foreground);
    ReprOptionHasNoComma(c.background);
  }

  lemma ParseFieldsOfRepr(c: Color)
    ensures ParseFields(ReprFields(c)) == Some(c)
  {
    var f := ReprFields(c);
    assert f[1][1..] == ReprOption(c.background);
    assert f[2][1..] == ReprBool(c.bold);
    ParseOptionOfRepr(c.foreground);
    ParseOptionOfRepr(c.background);
  }

  /** `repr` loses nothing: reading it back gives the same colour, for every colour. */
  lemma ReprRoundTrip(c: Color)
    ensures ParseRepr(Repr(c)) == Some(c)
  {
    var s := Repr(c);
    ReprIsJoin(c);
    assert s[6..|s| - 1] == ReprArguments(c);
    ReprFieldsHaveNoComma(c);
    SplitJoin(ReprFields(c), ',');
    ParseFieldsOfRepr(c);
  }

  lemma ParseFieldsSound(parts: seq<string>, c: Color)
    requires ParseFields(parts) == Some(c)
    ensures parts == ReprFields(c)
  {
    assert parts[1] == [' '] + parts[1][1..];
    assert parts[2] == [' '] + parts[2][1..];
  }

  /** Whatever `ParseRepr` accepts is exactly the repr of what it returns. */
  lemma ParseReprSound(s: string, c: Color)
    requires ParseRepr(s) == Some(c)
    ensures s == Repr(c)
  {
    assert |s| >= 7 && s[..6] == "Color(" && s[|s| - 1] == ')';
    var inner := s[6..|s| - 1];
    var parts := Split(inner, ',');
    assert ParseFields(parts) == Some(c);
    ParseFieldsSound(parts, c);
    JoinSplit(inner, ',');
    ReprIsJoin(c);
    assert inner == ReprArguments(c);
    assert s[|s| - 1..] == ")";
    ThreeParts(s, 6, |s| - 1);
  }

  /** Repr is injective: distinct colours print differently. */
  lemma ReprInjective(c1: Color, c2: Color)
    requires Repr(c1) == Repr(c2)
    ensures c1 == c2
  {
    ReprRoundTrip(c1);
    ReprRoundTrip(c2);
  }
}

=== FILE: decimal.dfy ===
/**
 Decimal text of integers, as Python's `str(int)` produces it: an optional
 leading minus sign followed by the digits of the magnitude, with no leading
 zeros. `ParseInt` reads it back (a left inverse: it also accepts
 non-canonical text such as "07") and is used to prove that rendering is
 information-preserving.
 */
module Decimal {
  import opened Wrappers

  predicate IsDigit(c: char) {
    '0' <= c <= '9'
  }

  predicate AllDigits(s: string) {
    forall i :: 0 <= i < |s| ==> IsDigit(s[i])
  }

  function DigitChar(d: nat): (c: char)
    requires d < 10
    ensures IsDigit(c)
    ensures DigitValue(c) == d
  {
    ('0' as int + d) as char
  }

  function DigitValue(c: char): (d: nat)
    requires IsDigit(c)
    ensures d < 10
  {
    (c as int) - ('0' as int)
  }

  /** The canonical digits of `n`: never empty, only digits, a leading zero only for zero itself. */
  function NatToDecimal(n: nat): (s: string)
    ensures |s| > 0
    ensures AllDigits(s)
    ensures s[0] == '0' <==> n == 0
    decreases n
  {
    if n < 10 then [DigitChar(n)] else NatToDecimal(n / 10) + [DigitChar(n % 10)]
  }

  /** Python's `str(n)` for any integer `n`. */
  function IntToDecimal(n: int): (s: string)
    ensures |s| > 0
    ensures s[0] == '-' <==> n < 0
  {
    if n < 0 then "-" + NatToDecimal(-n) else NatToDecimal(n)
  }

  /** Decimal text holds digits, and a minus sign only in front. */
  lemma IntToDecimalChars(n: int)
    ensures AllDigits(IntToDecimal(n)[1..])
    ensures forall i :: 0 <= i < |IntToDecimal(n)| ==> IsDigit(IntToDecimal(n)[i]) || IntToDecimal(n)[i] == '-'
  {
    var s := IntToDecimal(n);
    if n >= 0 {
      assert AllDigits(s);
    } else {
      assert s[1..] == NatToDecimal(-n);
    }
  }

  /** The value of a string of decimal digits, most significant first. */
  function DigitsValue(s: string): nat
    requires AllDigits(s)
  {
    if |s| == 0 then 0 else DigitsValue(s[..|s| - 1]) * 10 + DigitValue(s[|s| - 1])
  }

  /** Reads an optionally signed decimal integer; None for anything else. */
  function ParseInt(s: string): (r: Option<int>)
    ensures r.Some? ==> |s| > 0
    ensures r.Some? && r.value < 0 ==> s[0] == '-'
  {
    if |s| > 0 && s[0] == '-' then
      if |s| > 1 && AllDigits(s[1..]) then Some(-(DigitsValue(s[1..]) as int)) else None
    else if |s| > 0 && AllDigits(s) then Some(DigitsValue(s))
    else None
  }

  /** A one-digit number is written as that digit. */
  lemma OneDigitDecimal(n: int)
    requires 0 <= n < 10
    ensures IntToDecimal(n) == [DigitChar(n)]
  {
  }

  /** A two-digit number is written as its tens digit then its units digit. */
  lemma TwoDigitDecimal(n: int)
    requires 10 <= n < 100
    ensures IntToDecimal(n) == [DigitChar(n / 10), DigitChar(n % 10)]
  {
    assert NatToDecimal(n / 10) == [DigitChar(n / 10)];
    assert NatToDecimal(n) == NatToDecimal(n / 10) + [DigitChar(n % 10)];
  }

  lemma {:induction false} NatToDecimalRoundTrip(n: nat)
    ensures DigitsValue(NatToDecimal(n)) == n
    decreases n
  {
    if n >= 10 {
      var s := NatToDecimal(n);
      assert s[..|s| - 1] == NatToDecimal(n / 10);
      NatToDecimalRoundTrip(n / 10);
    }
  }

  /** `ParseInt` undoes `IntToDecimal` on every integer. */
  lemma IntToDecimalRoundTrip(n: int)
    ensures ParseInt(IntToDecimal(n)) == Some(n)
  {
    var s := IntToDecimal(n);
    if n < 0 {
      assert s[1..] == NatToDecimal(-n);
      NatToDecimalRoundTrip(-n);
    } else {
      NatToDecimalRoundTrip(n);
    }
  }

  /** Distinct integers have distinct decimal text. */
  lemma IntToDecimalInjective(m: int, n: int)
    ensures IntToDecimal(m) == IntToDecimal(n) ==> m == n
  {
    IntToDecimalRoundTrip(m);
    IntToDecimalRoundTrip(n);
  }
}

=== FILE: logging.dfy ===
/**
 The colourising log handler: a severity-name to colour map built from
 defaults and per-name overrides, the rule that wraps a formatted record in
 its level's colour only when the stream is a terminal, and the sequence of
 stream operations one emission performs.

 The host framework's record formatter and the stream's terminal check are
 not modelled: the already-formatted message and the terminal flag are
 parameters of the operations below.
 */
module ColorLogging {
  import opened Wrappers
  import opened Decimal
  import opened Colors
  import opened ColorParse

  type LevelName = string

  /** The colour for CRITICAL: white on red, bold. */
  const Critical: Color := WithBold(WithBackground(White, Red))

  /** The handler's built-in colours, one per standard severity name. */
  const DefaultColorMap: map<LevelName, Color> :=
    map["DEBUG" := Blue, "INFO" := Cyan, "WARNING" := Yellow, "ERROR" := Red, "CRITICAL" := Critical]

  /** The line terminator the stream handler writes after each message. */
  const DefaultTerminator: string := "\n"

  /** A configured handler: its colour map and its line terminator. */
  datatype Handler = Handler(colorMap: map<LevelName, Color>, terminator: string)

  /** The body of `ColorStreamHandler.__init__`: the defaults, then every override replacing or adding its own key. */
  function NewHandler(overrides: map<LevelName, Color>): (h: Handler)
    ensures h.colorMap.Keys == DefaultColorMap.Keys + overrides.Keys
    ensures forall level :: level in overrides ==> level in h.colorMap && h.colorMap[level] == overrides[level]
    ensures forall level :: level in DefaultColorMap && level !in overrides ==>
              level in h.colorMap && h.colorMap[level] == DefaultColorMap[level]
    ensures h.terminator == DefaultTerminator
  {
    Handler(DefaultColorMap + overrides, DefaultTerminator)
  }

  /**
   The keyword `__init__` binds its receiver to; passing an override under this
   name is a TypeError (multiple values for one argument).
   */
  const ReceiverName: LevelName := "self"

  /**
   `ColorStreamHandler(**overrides)`: None stands for the TypeError raised when
   an override is named like the receiver; otherwise the handler `__init__` builds.
   */
  function ConstructHandler(overrides: map<LevelName, Color>): (r: Option<Handler>)
    ensures r.None? <==> ReceiverName in overrides
    ensures r.Some? ==> r.value.terminator == DefaultTerminator
    ensures r.Some? ==> r.value.colorMap.Keys == DefaultColorMap.Keys + overrides.Keys
    ensures r.Some? ==> forall level :: level in overrides ==> r.value.colorMap[level] == overrides[level]
  {
    if ReceiverName in overrides then None else Some(NewHandler(overrides))
  }

  /** `color_map.get(level, Clear)`: the mapped colour, or no styling for an unknown level. */
  function ColorFor(h: Handler, level: LevelName): (c: Color)
    ensures level in h.colorMap ==> c == h.colorMap[level]
    ensures level !in h.colorMap ==> c == Clear
    ensures (forall l :: l in h.colorMap ==> InPalette(h.colorMap[l])) ==> InPalette(c)
  {
    if level in h.colorMap then h.colorMap[level] else Clear
  }

  /**
   `format`: `message` is what the base formatter produced for the record;
   it is wrapped in the level's colour exactly when the stream is a terminal.
   */
  function Format(h: Handler, message: string, level: LevelName, isTty: bool): (r: string)
    ensures !isTty ==> r == message
    ensures isTty ==> |r| >= |Csi| + |message| + |ResetSgr| && r[..|Csi|] == Csi && r[|r| - |message| - |ResetSgr|..] == message + ResetSgr
    ensures isTty && InPalette(ColorFor(h, level)) ==> DecodeRendered(r) == Some((ColorFor(h, level), message))
  {
    if isTty then
      RenderDecodes(ColorFor(h, level), message);
      Render(ColorFor(h, level), message)
    else message
  }

  lemma RenderDecodes(c: Color, text: string)
    ensures InPalette(c) ==> DecodeRendered(Render(c, text)) == Some((c, text))
  {
    if InPalette(c) {
      RenderRoundTrip(c, text);
    }
  }

  // ---------------------------------------------------------------------
  // Emission as a trace of stream operations

  /** One observable effect of an emission on the stream or the error path. */
  datatype Event = Write(text: string) | Flush | ErrorHandled

  /** Where in `emit` an exception is raised. */
  datatype Step = FormatStep | WriteMessageStep | WriteTerminatorStep | FlushStep

  /** The kind of exception: the two the handler re-raises, or any other. */
  datatype Signal = KeyboardInterrupt | SystemExit | OtherError

  datatype Fault = Fault(step: Step, signal: Signal)

  /** The events that happened, and the exception that escaped `emit`, if any. */
  datatype EmitResult = EmitResult(trace: seq<Event>, raised: Option<Signal>)

  /** The events an emission performs when nothing goes wrong. */
  function FullTrace(h: Handler, message: string, level: LevelName, isTty: bool): seq<Event> {
    [Write(Format(h, message, level, isTty)), Write(h.terminator), Flush]
  }

  /** How many events of the full trace happen before a fault at `step`. */
  function EventsBefore(step: Step): nat {
    match step
    case FormatStep => 0
    case WriteMessageStep => 0
    case WriteTerminatorStep => 1
    case FlushStep => 2
  }

  /**
   `emit`: format, write the message, write the terminator, flush. A fault
   stops the sequence where it happens; KeyboardInterrupt and SystemExit
   escape, any other exception goes to the error handler instead.
   */
  function Emit(h: Handler, message: string, level: LevelName, isTty: bool, fault: Option<Fault>): (r: EmitResult)
    ensures fault.None? ==> r.raised.None?
    ensures r.raised.Some? <==> fault.Some? && fault.value.signal != OtherError
    ensures r.raised.Some? ==> r.raised == Some(fault.value.signal)
    ensures Written(r.trace) <= Format(h, message, level, isTty) + h.terminator
    ensures Flush in r.trace <==> fault.None?
    ensures ErrorHandled in r.trace <==> fault.Some? && fault.value.signal == OtherError
    ensures fault.Some? && fault.value.signal == OtherError ==> |r.trace| > 0 && r.trace[|r.trace| - 1] == ErrorHandled
    ensures fault.Some? && (fault.value.step == FormatStep || fault.value.step == WriteMessageStep) ==> Written(r.trace) == ""
    ensures fault.Some? && fault.value.step == WriteTerminatorStep ==> Written(r.trace) == Format(h, message, level, isTty)
    ensures fault.Some? && fault.value.step == FlushStep ==> Written(r.trace) == Format(h, message, level, isTty) + h.terminator
  {
    var full := FullTrace(h, message, level, isTty);
    match fault
    case None =>
      WrittenFullTrace(h, message, level, isTty);
      EmitResult(full, None)
    case Some(Fault(step, signal)) =>
      var done := full[..EventsBefore(step)];
      WrittenBefore(h, message, level, isTty, step);
      if signal == OtherError then EmitResult(done + [ErrorHandled], None)
      else EmitResult(done, Some(signal))
  }

  /** The text that reached the stream: every write, in order. */
  function Written(trace: seq<Event>): string {
    if |trace| == 0 then ""
    else (if trace[0].Write? then trace[0].text else "") + Written(trace[1..])
  }

  /** `handlers(**overrides)`: a one-element list holding the handler built from the overrides. */
  function Handlers(overrides: map<LevelName, Color>): (r: Option<seq<Handler>>)
    ensures r.None? <==> ReceiverName in overrides
    ensures r.Some? ==> |r.value| == 1
    ensures r.Some? ==> r.value[0].terminator == DefaultTerminator
    ensures r.Some? ==> r.value[0].colorMap.Keys == DefaultColorMap.Keys + overrides.Keys
    ensures r.Some? ==> forall level :: ColorFor(r.value[0], level) == EffectiveColor(overrides, level)
  {
    match ConstructHandler(overrides)
    case None => None
    case Some(h) => Some([h])
  }

  // ---------------------------------------------------------------------
  // Properties

  /** The colour a level gets: its override, else its default, else Clear. */
  function EffectiveColor(overrides: map<LevelName, Color>, level: LevelName): Color {
    if level in overrides then overrides[level]
    else if level in DefaultColorMap then DefaultColorMap[level]
    else Clear
  }

  /** Lookup in a constructed handler follows override, then default, then Clear. */
  lemma LookupPrecedence(overrides: map<LevelName, Color>, level: LevelName)
    ensures ColorFor(NewHandler(overrides), level) == EffectiveColor(overrides, level)
  {
  }

  /** The defaults, and CRITICAL in particular, which is white on red and bold. */
  lemma DefaultColors()
    ensures Critical == Color(Some(7), Some(1), true)
    ensures forall level :: level in DefaultColorMap ==> InPalette(DefaultColorMap[level])
    ensures DefaultColorMap.Keys == {"DEBUG", "INFO", "WARNING", "ERROR", "CRITICAL"}
  {
  }

  /** Overriding only ERROR leaves the other four defaults as they were. */
  lemma OverrideErrorOnly(color: Color)
    ensures var h := NewHandler(map["ERROR" := color]);
      && ColorFor(h, "ERROR") == color
      && ColorFor(h, "DEBUG") == Blue
      && ColorFor(h, "INFO") == Cyan
      && ColorFor(h, "WARNING") == Yellow
      && ColorFor(h, "CRITICAL") == Critical
  {
  }

  /** Without a terminal no level changes the message. */
  lemma FormatWithoutTtyIsIdentity(h: Handler, message: string)
    ensures forall level :: Format(h, message, level, false) == message
  {
  }

  /** On a terminal the message is recoverable from the output, together with the level's colour. */
  lemma FormatOnTtyDecodes(h: Handler, message: string, level: LevelName)
    requires InPalette(ColorFor(h, level))
    ensures DecodeRendered(Format(h, message, level, true)) == Some((ColorFor(h, level), message))
  {
    RenderRoundTrip(ColorFor(h, level), message);
  }

  /** With the default map, every level's terminal output decodes back to its message. */
  lemma DefaultHandlerOutputDecodes(message: string, level: LevelName)
    ensures DecodeRendered(Format(NewHandler(map[]), message, level, true))
         == Some((ColorFor(NewHandler(map[]), level), message))
  {
    DefaultColors();
    FormatOnTtyDecodes(NewHandler(map[]), message, level);
  }

  /** With the default map, a CRITICAL record on a terminal carries the codes 37;41;1 in that order. */
  lemma CriticalOnTty(message: string)
    ensures Format(NewHandler(map[]), message, "CRITICAL", true) == Csi + "37;41;1m" + message + ResetSgr
  {
    DefaultColors();
    CriticalRender(message);
  }

  lemma CriticalRender(message: string)
    ensures Render(Critical, message) == Csi + "37;41;1m" + message + ResetSgr
  {
    var c := Critical;
    CodesArePresentFields(c);
    TwoDigitDecimal(37);
    TwoDigitDecimal(41);
    assert Codes(c) == ["37", "41", "1"];
    assert CodeString(c) == "37;41;1";
  }

  lemma {:induction false} WrittenAppend(a: seq<Event>, b: seq<Event>)
    ensures Written(a + b) == Written(a) + Written(b)
    decreases |a|
  {
    if |a| > 0 {
      WrittenAppend(a[1..], b);
      assert (a + b)[0] == a[0];
      assert (a + b)[1..] == a[1..] + b;
    } else {
      assert a + b == b;
    }
  }

  /** What a prefix of a trace writes is a prefix of what the whole trace writes. */
  lemma WrittenPrefix(t: seq<Event>, k: nat)
    requires k <= |t|
    ensures Written(t[..k]) <= Written(t)
  {
    var a, b := Written(t[..k]), Written(t[k..]);
    WrittenAppend(t[..k], t[k..]);
    assert t[..k] + t[k..] == t;
    assert (a + b)[..|a|] == a;
  }

  /** What reached the stream before a fault at `step`: nothing, the message, or the message and the terminator. */
  function TextBefore(h: Handler, message: string, level: LevelName, isTty: bool, step: Step): string {
    match step
    case FormatStep => ""
    case WriteMessageStep => ""
    case WriteTerminatorStep => Format(h, message, level, isTty)
    case FlushStep => Format(h, message, level, isTty) + h.terminator
  }

  /** The events before a fault write `TextBefore`, a prefix of the full output, whether or not the error handler follows. */
  lemma WrittenBefore(h: Handler, message: string, level: LevelName, isTty: bool, step: Step)
    ensures var done := FullTrace(h, message, level, isTty)[..EventsBefore(step)];
      && Written(done) == TextBefore(h, message, level, isTty, step)
      && Written(done + [ErrorHandled]) == TextBefore(h, message, level, isTty, step)
      && TextBefore(h, message, level, isTty, step) <= Format(h, message, level, isTty) + h.terminator
  {
    var t := FullTrace(h, message, level, isTty);
    var done := t[..EventsBefore(step)];
    var f := Format(h, message, level, isTty);
    WrittenFullTrace(h, message, level, isTty);
    WrittenPrefix(t, EventsBefore(step));
    WrittenAppend(done, [ErrorHandled]);
    match step
    case FormatStep =>
    case WriteMessageStep =>
    case WriteTerminatorStep =>
      assert done == [Write(f)];
      assert Written(done) == f + Written(done[1..]);
    case FlushStep =>
      assert done == [Write(f), Write(h.terminator)];
      assert done[1..] == [Write(h.terminator)];
      assert Written(done[1..]) == h.terminator + Written(done[1..][1..]);
      assert Written(done) == f + Written(done[1..]);
  }

  lemma WrittenFullTrace(h: Handler, message: string, level: LevelName, isTty: bool)
    ensures Written(FullTrace(h, message, level, isTty)) == Format(h, message, level, isTty) + h.terminator
  {
    var t := FullTrace(h, message, level, isTty);
    assert t[1..][1..][1..] == [];
    assert Written(t[1..][1..]) == "";
  }

  /** A clean emission writes the formatted message then the terminator, and flushes last. */
  lemma EmitWritesMessageThenTerminator(h: Handler, message: string, level: LevelName, isTty: bool)
    ensures var r := Emit(h, message, level, isTty, None);
      && Written(r.trace) == Format(h, message, level, isTty) + h.terminator
      && r.trace[|r.trace| - 1] == Flush
  {
    WrittenFullTrace(h, message, level, isTty);
  }
}

=== FILE: strings.dfy ===
/**
 Python's `sep.join(parts)` and `s.split(sep)` for a one-character separator,
 and the first-occurrence search used to take a rendered escape apart.
 */
module Strings {

  /** `sep.join(parts)`: the parts in order with one separator between neighbours. */
  function Join(parts: seq<string>, sep: char): (r: string)
    ensures |parts| == 0 ==> r == ""
    ensures |parts| == 1 ==> r == parts[0]
    ensures |parts| > 0 ==> |parts[0]| <= |r| && r[..|parts[0]|] == parts[0]
  {
    if |parts| == 0 then ""
    else if |parts| == 1 then parts[0]
    else parts[0] + [sep] + Join(parts[1..], sep)
  }

  /** `s.split(sep)`: the maximal separator-free pieces; the empty string splits to `[""]`. */
  function Split(s: string, sep: char): (r: seq<string>)
    ensures |r| > 0
    ensures forall i :: 0 <= i < |r| ==> sep !in r[i]
    decreases |s|
  {
    if |s| == 0 then [""]
    else
      var rest := Split(s[1..], sep);
      if s[0] == sep then [""] + rest else [[s[0]] + rest[0]] + rest[1..]
  }

  /** Index of the first `c` in `s`, or `|s|` when there is none. */
  function IndexOf(s: string, c: char): (i: nat)
    ensures i <= |s|
    ensures c !in s[..i]
    ensures i < |s| ==> s[i] == c
    ensures i == |s| <==> c !in s
  {
    if |s| == 0 then 0
    else if s[0] == c then 0
    else 1 + IndexOf(s[1..], c)
  }

  /** Every character of a join is a separator or a character of some part. */
  lemma {:induction false} JoinChars(parts: seq<string>, sep: char, c: char)
    requires c in Join(parts, sep)
    ensures c == sep || exists i :: 0 <= i < |parts| && c in parts[i]
    decreases |parts|
  {
    if |parts| > 1 {
      var tail := Join(parts[1..], sep);
      assert Join(parts, sep) == parts[0] + [sep] + tail;
      if c in tail {
        JoinChars(parts[1..], sep, c);
        if c != sep {
          var i :| 0 <= i < |parts[1..]| && c in parts[1..][i];
          assert c in parts[i + 1];
        }
      } else if c != sep {
        assert c in parts[0];
      }
    } else if |parts| == 1 {
      assert c in parts[0];
    }
  }

  lemma {:induction false} SplitNoSeparator(a: string, sep: char)
    requires sep !in a
    ensures Split(a, sep) == [a]
    decreases |a|
  {
    if |a| > 0 {
      SplitNoSeparator(a[1..], sep);
      assert [a[0]] + a[1..] == a;
    }
  }

  lemma {:induction false} SplitAfterField(a: string, sep: char, b: string)
    requires sep !in a
    ensures Split(a + [sep] + b, sep) == [a] + Split(b, sep)
    decreases |a|
  {
    var s := a + [sep] + b;
    if |a| == 0 {
      assert s[1..] == b;
    } else {
      assert s[1..] == a[1..] + [sep] + b;
      SplitAfterField(a[1..], sep, b);
      assert [a[0]] + a[1..] == a;
    }
  }

  /** Splitting a join of separator-free parts gives the parts back. */
  lemma {:induction false} SplitJoin(parts: seq<string>, sep: char)
    requires |parts| > 0
    requires forall i :: 0 <= i < |parts| ==> sep !in parts[i]
    ensures Split(Join(parts, sep), sep) == parts
    decreases |parts|
  {
    if |parts| == 1 {
      SplitNoSeparator(parts[0], sep);
    } else {
      SplitJoin(parts[1..], sep);
      SplitAfterField(parts[0], sep, Join(parts[1..], sep));
      assert [parts[0]] + parts[1..] == parts;
    }
  }

  /** The first `c` in `a + [c] + b` is the one after `a` when `a` has none. */
  lemma IndexOfAfterPrefix(a: string, c: char, b: string)
    requires c !in a
    ensures IndexOf(a + [c] + b, c) == |a|
  {
    var s := a + [c] + b;
    assert s[..|a|] == a;
    assert s[|a|] == c;
  }

  lemma ThreeParts(s: string, i: nat, j: nat)
    requires i <= j <= |s|
    ensures s == s[..i] + s[i..j] + s[j..]
  {
  }

  /** Joining a part in front of a non-empty list puts one separator between. */
  lemma JoinCons(a: string, rest: seq<string>, sep: char)
    requires |rest| > 0
    ensures Join([a] + rest, sep) == a + [sep] + Join(rest, sep)
  {
    assert ([a] + rest)[1..] == rest;
  }

  /** Joining the pieces of a split gives the original string back. */
  lemma {:induction false} JoinSplit(s: string, sep: char)
    ensures Join(Split(s, sep), sep) == s
    decreases |s|
  {
    if |s| > 0 {
      var rest := Split(s[1..], sep);
      JoinSplit(s[1..], sep);
      if s[0] == sep {
        JoinCons("", rest, sep);
      } else if |rest| == 1 {
        assert Join([[s[0]] + rest[0]], sep) == [s[0]] + rest[0];
      } else {
        JoinCons(rest[0], rest[1..], sep);
        assert [rest[0]] + rest[1..] == rest;
        JoinCons([s[0]] + rest[0], rest[1..], sep);
      }
      assert [s[0]] + s[1..] == s;
    }
  }
}

=== FILE: wrappers.dfy ===
/** The optional-value type shared by the model: Python's `None` versus a value. */
module Wrappers {

  datatype Option<+T> = None | Some(value: T)
}
